=== FILE: README.md ===
# Disc-golf scorekeeper: a Dafny model of the client-side logic

The application lets a group of one to eight players pick a course, enter
throw counts and out-of-bounds (OB) flags hole by hole, and read a results
table. This project models the parts of the client that hold logic, with
proofs about them:

- **Play page** (`RoundState`, `Scoring`, `ScoringLaws`). This is the round state:
  - holes with their par;
  - players, each with one score slot (`None` until entered) and one OB flag per hole;
  - the (hole, player) cursor;
  - the digit kept back for a two-digit score (`pendingInput`).

  Each event is one pure transition: a keypad digit, the keypad OB key, a row's OB button, a row click, advance (→) and retreat (←). `Valid` is the invariant every reachable round keeps:
  - the cursor is in bounds;
  - there is one score slot and one OB flag per hole;
  - only 1 is ever kept back;
  - every score is between 0 and 19.
- **Results page** (`Summary`):
  - the total score;
  - the par difference, taken against the par of all holes;
  - the total par;
  - the colour category of every score cell and of the difference cell, with the OB underline as a separate flag;
  - the signed text of the difference.
- **Home page** (`CourseSort`, `StringOrder`, `PlayerList`):
  - the bubble sort of the course list by name, under JavaScript's string order;
  - the player-name list, kept to 1..8 names of at most 20 characters.

`Decimal` renders integers the way a JavaScript template literal does. `Wrappers` holds `Option`, which stands for `null`.

Three behaviours of the code worth knowing:
- Clicking a player row does not clear the kept-back digit (`PlayPage.tsx:173`). So "1" on one player, a click on another row, then "2" gives the second player 12. `ScoringLaws.PendingCarriesAcrossRowSelect` shows this.
- The play page does not reject a player count outside 1..8. `InitRound` accepts any list of names, and its result is `Valid` whenever there is at least one name and one hole. The 1..8 bound comes from the home page (`PlayerList`).
- The par difference subtracts the par of every hole, scored or not (`SummaryPage.tsx:16-20`).

## Model

| member | source | states |
|---|---|---|
| `RoundState.DisplayName` | client/src/Pages/PlayPage.tsx:36 | a player's shown name is the typed name when there is one, and the default "Player n" (n counted from 1) for an empty entry; it is never empty |
| `RoundState.InitRound` | client/src/Pages/PlayPage.tsx:32-44 | a fresh round has one player per name, every score unset and every OB flag false on every hole, the cursor at (0,0) and nothing kept back; with at least one name and one hole it satisfies the round invariant |
| `RoundState.AllScoresMarked` | client/src/Pages/PlayPage.tsx:48-49 | holds exactly when every player has a score for that hole |
| `Scoring.HandleScoreInput` | client/src/Pages/PlayPage.tsx:51-83 | a keypad press changes only the selected player's slot at the current hole and keeps the invariant. A digit with nothing kept back becomes the score, and a 1 is kept back exactly when the digit is 1. A digit after a kept-back 1 gives 10 + digit and clears it. The OB key flips the flag only: score and kept-back digit stay |
| `Scoring.ToggleOBStatus` | client/src/Pages/PlayPage.tsx:85-99 | a row's OB button flips that player's flag at the current hole. It changes nothing else, including scores, cursor and the kept-back digit |
| `Scoring.SelectPlayer` | client/src/Pages/PlayPage.tsx:173 | a row click moves only the player cursor; the hole, every score and the kept-back digit stay |
| `Scoring.NextHoleOrPlayer` | client/src/Pages/PlayPage.tsx:101-116 | advance goes to the next player, else to the first player of the next hole, else it reports completion with the cursor unchanged. It always clears the kept-back digit. Without completion it moves exactly one cell forward in hole-major order; completion happens exactly at the last cell |
| `Scoring.PreviousHole` | client/src/Pages/PlayPage.tsx:119-125 | retreat goes to the first player of the previous hole, or leaves the cursor at hole 0. It always clears the kept-back digit and keeps the invariant |
| `Scoring.Step` | client/src/Pages/PlayPage.tsx:173-254 | every event the page can deliver keeps the round invariant and the hole list, and only advance can complete the round; row events name a row on screen, and retreat is offered only away from the first hole (its button is disabled there, line 225) |
| `Scoring.Run` | client/src/Pages/PlayPage.tsx:51-125 | any sequence of events keeps the round invariant, events the page cannot deliver in the current round being passed over. So every score stays within 0..19 and only 1 is ever kept back |
| `ScoringLaws.OBKeyIsRowButton` | client/src/Pages/PlayPage.tsx:59-60 | the keypad OB key acts exactly as the selected row's OB button |
| `ScoringLaws.ToggleOBTwice` | client/src/Pages/PlayPage.tsx:85-99 | pressing a row's OB button twice restores the round exactly |
| `ScoringLaws.OBKeyTwice` | client/src/Pages/PlayPage.tsx:59-60 | pressing the keypad OB key twice restores the round exactly |
| `ScoringLaws.EnterScore` | client/src/Pages/PlayPage.tsx:62-70 | every score 0..19 is entered by typing its decimal digits, and a digit is left kept back only for the score 1 |
| `ScoringLaws.NonOneDigitIsOverwritten` | client/src/Pages/PlayPage.tsx:66-69 | after a first digit other than 1, a second digit replaces it ("5","3" gives 3, not 53) |
| `ScoringLaws.ThreeOnes` | client/src/Pages/PlayPage.tsx:62-70 | "1","1","1" leaves the score 1 with a 1 kept back again |
| `ScoringLaws.PendingCarriesAcrossRowSelect` | client/src/Pages/PlayPage.tsx:173 | a kept-back 1 survives a row click and completes the next player's score as 10 + digit |
| `ScoringLaws.AdvanceThenRetreat` | client/src/Pages/PlayPage.tsx:119-125 | retreating after advancing from the last player of a hole returns to the first player of that hole |
| `ScoringLaws.AdvanceWalk` | client/src/Pages/PlayPage.tsx:101-116 | k presses of advance from cell c reach cell c + k, in hole-major order, as long as that cell exists |
| `ScoringLaws.AdvanceCompletesAfterEveryCell` | client/src/Pages/PlayPage.tsx:111-114 | from a fresh round, one advance per (hole, player) cell reaches completion |
| `ScoringLaws.StartedRoundsStayValid` | client/src/Pages/PlayPage.tsx:32-44 | every round reached from a started round by any sequence of events the page can deliver satisfies the invariant |
| `ScoringLaws.FirstDigitRaisesTotal` | client/src/Pages/PlayPage.tsx:66-68 | a first digit typed into an unscored cell raises the player's results-page total by that digit |
| `Summary.TotalScore` | client/src/Pages/SummaryPage.tsx:13-14 | an all-unset row totals 0; a row of keypad scores totals between 0 and 19 per hole |
| `Summary.TotalScoreUpdate` | client/src/Pages/SummaryPage.tsx:13-14 | changing one cell changes the total by exactly the change in that cell's contribution |
| `Summary.ScoringACell` | client/src/Pages/SummaryPage.tsx:16-20 | scoring an unset cell with s raises both the total and the par difference by exactly s |
| `Summary.ParDifferenceByHole` | client/src/Pages/SummaryPage.tsx:16-20 | the total score minus the par of all holes is the sum over all holes of score − par for scored holes and −par for unscored ones |
| `Summary.ParDifference` | client/src/Pages/SummaryPage.tsx:16-20 | the difference shown is the total score against the par of every hole: hole by hole, each scored hole adds score − par and each unscored hole subtracts its par; with nothing scored it is minus the total par |
| `Summary.TotalPar` | client/src/Pages/SummaryPage.tsx:22 | the par of the course adds every hole's par; when every par is at least 1 it is at least the number of holes (`TotalParCons` gives the hole-by-hole form used by the difference) |
| `Summary.UnscoredParDifference` | client/src/Pages/SummaryPage.tsx:18-19 | with nothing scored the par difference is minus the total par of the course |
| `Summary.GetCellStyle` | client/src/Pages/SummaryPage.tsx:24-56 | an unset cell is plain and never OB-marked. A score of 1 is a hole-in-one whatever the par. Any other score falls in exactly one band of d = score − par: d < −2, −2 ≤ d < 0, d = 0, d = 1, d > 1. The OB mark is present exactly when the cell is scored and flagged |
| `Summary.DifferenceCategory` | client/src/Pages/SummaryPage.tsx:140-150 | the difference cell falls in exactly one of the same five bands and is never hole-in-one or unset |
| `Summary.OBDoesNotChangeCategory` | client/src/Pages/SummaryPage.tsx:51-53 | the OB flag never changes a cell's category |
| `Summary.CellMatchesDifferenceBands` | client/src/Pages/SummaryPage.tsx:36-48 | apart from a hole-in-one, a score cell is coloured as a difference of score − par would be |
| `Summary.DifferenceCategoryMonotone` | client/src/Pages/SummaryPage.tsx:140-150 | a larger difference never receives a better band |
| `Summary.DifferenceLabel` | client/src/Pages/SummaryPage.tsx:152-153 | the text starts with "+" exactly when the difference is positive, with "-" exactly when negative, and is "0" exactly at zero; a non-zero difference has no leading zero after its sign |
| `Summary.DifferenceLabelRoundTrip` | client/src/Pages/SummaryPage.tsx:152-153 | the shown text reads back as the difference |
| `Summary.SummaryRow` | client/src/Pages/SummaryPage.tsx:107-154 | a results row shows the player's name, one cell per hole classified from that hole's score, par and flag, the total score, the difference of that total to the total par with its band, and the difference text with "+" before a positive value, which reads back as that difference |
| `Summary.RowTracksScoring` | client/src/Pages/SummaryPage.tsx:107-137 | scoring an unset cell with s raises the row's total and difference by s, gives that cell its category and leaves every other cell as it was |
| `Summary.ThreeHoleExample` | client/src/Pages/SummaryPage.tsx:13-22 | pars 3,4,3 with scores 3, 6 (OB), 2 give total 11, par 10, difference +1, cells at-par / over-par with OB / under-par |
| `StringOrder.Less` | client/src/Pages/HomePage.tsx:17 | JavaScript's `<` on names: a name is never before itself; `FirstDifferenceDecides` and `PrefixIsLess` together fix the order completely |
| `StringOrder.FirstDifferenceDecides` | client/src/Pages/HomePage.tsx:17 | when two names agree on their first k characters and differ at position k, the first is before the second exactly when its character at k is smaller |
| `StringOrder.Transitive` | client/src/Pages/HomePage.tsx:17 | the string comparison used by the sort is transitive |
| `StringOrder.Trichotomy` | client/src/Pages/HomePage.tsx:17 | any two names are ordered one way, the other way, or equal |
| `StringOrder.PrefixIsLess` | client/src/Pages/HomePage.tsx:17 | a proper prefix sorts before the longer name |
| `CourseSort.SwapKeepsNamed` | client/src/Pages/HomePage.tsx:17-19 | a swap of neighbours with different names leaves, for every name, the order of the courses bearing it unchanged |
| `CourseSort.AdjacentToSorted` | client/src/Pages/HomePage.tsx:21-23 | when every neighbour pair is in order, the whole range is sorted; this is why the early exit is sound |
| `CourseSort.SortCourses` | client/src/Pages/HomePage.tsx:9-27 | the result is sorted by name and is a permutation of the input. It is stable: for every name, the courses bearing it keep their input order. An already-sorted input comes back unchanged |
| `PlayerList.DefaultName` | client/src/Pages/HomePage.tsx:53 | a default name is "Player " followed by the decimal number that reads back as n; for n < 10 it is 8 characters, and the number is written without a leading zero |
| `PlayerList.InitialNames` | client/src/Pages/HomePage.tsx:32 | the list starts as the single default name of player 1, which is a valid list |
| `PlayerList.AddPlayer` | client/src/Pages/HomePage.tsx:51-55 | below eight names it appends the default name for the new position and keeps the others; at eight it changes nothing; validity is kept |
| `PlayerList.WithoutIndex` | client/src/Pages/HomePage.tsx:59 | filtering out position i removes exactly the element at i, keeping the others in order; an index outside the list removes nothing |
| `PlayerList.RemovePlayer` | client/src/Pages/HomePage.tsx:57-61 | with more than one name it removes exactly the one at i and keeps the rest in order; with one name it changes nothing; validity is kept |
| `PlayerList.ChangeName` | client/src/Pages/HomePage.tsx:134-139 | an edit replaces only position i, and it is taken exactly when it is at most 20 characters; a longer edit leaves the list unchanged; validity is kept |
| `PlayerList.ApplyEdits` | client/src/Pages/HomePage.tsx:32-61 | any sequence of add, remove and rename keeps the list within 1..8 names of at most 20 characters |
| `Decimal.NatToString` | client/src/Pages/HomePage.tsx:53 | a number prints as a non-empty digit string with no leading zero, one character long exactly below 10 |
| `Decimal.IntToString` | client/src/Pages/SummaryPage.tsx:153 | an integer prints as digits with a minus sign exactly when negative and no leading zero unless it is 0 (`IntToStringRoundTrip` reads it back) |
| `Decimal.IntToStringRoundTrip` | client/src/Pages/SummaryPage.tsx:153 | a printed integer reads back as itself |

## Left out

- Fetching the course list and the holes of a course, `useEffect`, `handleStartGame` and all navigation are I/O (`HomePage.tsx:35-43, 63-93`, the server's routes and database pool). The hole list enters the model as an argument. The results page is entered as the `complete` flag of advance.
- Rendering, Tailwind class strings and the colours of the progress dots are presentation. Cells are modelled as categories; the progress dot's condition is `AllScoresMarked`.
- The "Results" button in the play page header (`PlayPage.tsx:133`) and the "Edit Scores" re-entry from the results page (`SummaryPage.tsx:169-172`) are navigation. The re-entry passes no player count, so `numPlayers` would be undefined. The model always takes the player count to be the number of players.
- React's batching of state updates is not modelled. Events are handled strictly one after another, each seeing the state the previous one left.
- `CourseSort.SortCourses` works on a sequence value, not the caller's array in place. Its result equals what the in-place sort leaves in the array.
- `StringOrder.Less` compares Dafny characters (Unicode scalar values), while JavaScript compares UTF-16 code units. The two orders differ only for characters outside the Basic Multilingual Plane.
- `PlayerList.ChangeName` measures a name's length in Unicode scalar values, while JavaScript's `length` counts UTF-16 code units. A name with characters outside the Basic Multilingual Plane can be accepted here with more than 20 code units.
- The HTML `maxLength` and `required` attributes on the name field are browser form validation, not program logic.
- Numbers are unbounded integers. The scores and pars involved stay far below the range where JavaScript's double-precision arithmetic loses exactness.

=== FILE: course_sort.dfy ===
/**
 * `sortCourses` from the home page: a bubble sort of the course list by
 * `course_name` that swaps neighbours only when the left name is strictly
 * greater, and stops after the first pass that makes no swap. `sortCourses`
 * sorts a JavaScript array in place and returns it; here the array is a
 * sequence value and every swap produces the next value.
 */
module CourseSort {
  import StringOrder

  datatype Course = Course(courseId: int, courseName: string)

  /** `a` may stand before `b` in a sorted list. */
  predicate InOrder(a: Course, b: Course) {
    StringOrder.NotAfter(a.courseName, b.courseName)
  }

  predicate SortedBetween(s: seq<Course>, lo: int, hi: int)
    requires 0 <= lo && hi <= |s|
  {
    forall k, l :: lo <= k < l < hi ==> InOrder(s[k], s[l])
  }

  predicate Sorted(s: seq<Course>) {
    SortedBetween(s, 0, |s|)
  }

  /** Every course before position `m` may stand before every course from `m` on. */
  predicate Partitioned(s: seq<Course>, m: int) {
    forall k, l :: 0 <= k < m <= l < |s| ==> InOrder(s[k], s[l])
  }

  /** The courses called `name`, in the order in which they occur in `s`. */
  function Named(s: seq<Course>, name: string): (r: seq<Course>)
    ensures |r| <= |s|
  {
    if |s| == 0 then []
    else (if s[0].courseName == name then [s[0]] else []) + Named(s[1..], name)
  }

  /** Stability: for every name, the courses bearing it keep their relative order. */
  ghost predicate SameOrderPerName(a: seq<Course>, b: seq<Course>) {
    forall name :: Named(a, name) == Named(b, name)
  }

  lemma {:induction false} NamedAppend(a: seq<Course>, b: seq<Course>, name: string)
    ensures Named(a + b, name) == Named(a, name) + Named(b, name)
    decreases |a|
  {
    if |a| > 0 {
      assert (a + b)[1..] == a[1..] + b;
      NamedAppend(a[1..], b, name);
    } else {
      assert a + b == b;
    }
  }

  /** Exchanges the neighbours at `j` and `j + 1`. */
  function Swap(s: seq<Course>, j: nat): (r: seq<Course>)
    requires j + 1 < |s|
    ensures |r| == |s| && r[j] == s[j + 1] && r[j + 1] == s[j]
    ensures forall k :: 0 <= k < |s| && k != j && k != j + 1 ==> r[k] == s[k]
    ensures multiset(r) == multiset(s)
  {
    s[j := s[j + 1]][j + 1 := s[j]]
  }

  /** Exchanging two neighbours with different names keeps every per-name order. */
  lemma SwapKeepsNamed(s: seq<Course>, j: nat, name: string)
    requires j + 1 < |s| && s[j].courseName != s[j + 1].courseName
    ensures Named(Swap(s, j), name) == Named(s, name)
  {
    var front, back := s[..j], s[j + 2..];
    assert s == front + ([s[j]] + [s[j + 1]]) + back;
    assert Swap(s, j) == front + ([s[j + 1]] + [s[j]]) + back;
    NamedAppend(front + ([s[j]] + [s[j + 1]]), back, name);
    NamedAppend(front, [s[j]] + [s[j + 1]], name);
    NamedAppend(front + ([s[j + 1]] + [s[j]]), back, name);
    NamedAppend(front, [s[j + 1]] + [s[j]], name);
    NamedAppend([s[j]], [s[j + 1]], name);
    NamedAppend([s[j + 1]], [s[j]], name);
  }

  /** Neighbours in order on `[lo, hi)` gives the whole range in order. */
  lemma {:induction false} AdjacentToSorted(s: seq<Course>, lo: int, hi: int)
    requires 0 <= lo && hi <= |s|
    requires forall k :: lo <= k < hi - 1 ==> InOrder(s[k], s[k + 1])
    ensures SortedBetween(s, lo, hi)
    decreases hi - lo
  {
    if lo < hi {
      AdjacentToSorted(s, lo + 1, hi);
      forall l | lo + 1 < l < hi
        ensures InOrder(s[lo], s[l])
      {
        StringOrder.NotAfterTransitive(s[lo].courseName, s[lo + 1].courseName, s[l].courseName);
      }
      forall l | lo == l
        ensures InOrder(s[lo], s[l])
      {
        StringOrder.NotAfterReflexive(s[lo].courseName);
      }
    }
  }

  method SortCourses(input: seq<Course>) returns (a: seq<Course>)
    ensures Sorted(a)
    ensures multiset(a) == multiset(input)
    ensures SameOrderPerName(a, input)
    ensures Sorted(input) ==> a == input
  {
    a := input;
    var n := |a|;
    var i := 0;
    // one pass for each i in 0..n-2, unless a pass makes no swap
    while i < n - 1
      invariant |a| == n && 0 <= i <= n
      invariant multiset(a) == multiset(input)
      invariant SameOrderPerName(a, input)
      invariant Sorted(input) ==> a == input
      invariant SortedBetween(a, n - i, n) && Partitioned(a, n - i)
    {
      var swapped := false;
      var j := 0;
      StringOrder.NotAfterReflexive(a[0].courseName);
      // compare the neighbours at j and j + 1 for each j in 0..n-i-2
      while j < n - i - 1
        invariant |a| == n && 0 <= j < n - i
        invariant multiset(a) == multiset(input)
        invariant SameOrderPerName(a, input)
        invariant Sorted(input) ==> a == input
        invariant SortedBetween(a, n - i, n) && Partitioned(a, n - i)
        invariant forall k :: 0 <= k <= j ==> InOrder(a[k], a[j])
        invariant !swapped ==> forall k :: 0 <= k < j ==> InOrder(a[k], a[k + 1])
      {
        if StringOrder.Less(a[j + 1].courseName, a[j].courseName) {
          StringOrder.LessIsNotAfter(a[j + 1].courseName, a[j].courseName);
          forall name {
            SwapKeepsNamed(a, j, name);
          }
          StringOrder.NotAfterReflexive(a[j].courseName);
          a := Swap(a, j);
          swapped := true;
        } else {
          forall k | 0 <= k <= j {
            StringOrder.NotAfterTransitive(a[k].courseName, a[j].courseName, a[j + 1].courseName);
          }
          StringOrder.NotAfterReflexive(a[j + 1].courseName);
        }
        j := j + 1;
      }
      if !swapped {
        AdjacentToSorted(a, 0, n - i);
        break;
      }
      i := i + 1;
    }
  }
}

=== FILE: decimal.dfy ===
/**
 * Decimal rendering of integers, as JavaScript prints an integral number
 * (`String(n)` or a template literal `${n}`): an optional minus sign followed
 * by digits with no leading zero. A parser is given as the inverse, so the
 * rendering is pinned down by a round trip.
 */
module Decimal {

  predicate IsDigitChar(c: char) {
    '0' <= c <= '9'
  }

  predicate AllDigits(s: string) {
    forall i :: 0 <= i < |s| ==> IsDigitChar(s[i])
  }

  function DigitValue(c: char): (d: nat)
    requires IsDigitChar(c)
    ensures d < 10
  {
    (c as int) - ('0' as int)
  }

  function DigitChar(d: nat): (c: char)
    requires d < 10
    ensures IsDigitChar(c) && DigitValue(c) == d
  {
    (('0' as int) + d) as char
  }

  /** The decimal digits of `n`, most significant first. */
  function NatToString(n: nat): (s: string)
    ensures 0 < |s| && AllDigits(s)
    ensures |s| == 1 <==> n < 10
    ensures s[0] == '0' ==> n == 0
    decreases n
  {
    if n < 10 then [DigitChar(n)] else NatToString(n / 10) + [DigitChar(n % 10)]
  }

  /** The value of a string of decimal digits (the empty string reads as 0). */
  function ParseNat(s: string): nat
    requires AllDigits(s)
  {
    if |s| == 0 then 0 else ParseNat(s[..|s| - 1]) * 10 + DigitValue(s[|s| - 1])
  }

  lemma {:induction false} ParseNatToString(n: nat)
    ensures ParseNat(NatToString(n)) == n
  {
    var s := NatToString(n);
    if n >= 10 {
      assert s[..|s| - 1] == NatToString(n / 10);
      ParseNatToString(n / 10);
    }
  }

  /** An integer as JavaScript prints it: a minus sign only for negative values. */
  function IntToString(i: int): (s: string)
    ensures 0 < |s|
    ensures s[0] == '-' <==> i < 0
    ensures i >= 0 ==> AllDigits(s)
    ensures i < 0 ==> AllDigits(s[1..])
    ensures i < 0 ==> 1 < |s|
    ensures i != 0 ==> s[if i < 0 then 1 else 0] != '0'
  {
    if i < 0 then
      assert ("-" + NatToString(-i))[1..] == NatToString(-i);
      "-" + NatToString(-i)
    else NatToString(i)
  }

  /** An optional sign (`+` or `-`) followed by digits. */
  predicate IsSignedDecimal(s: string) {
    0 < |s| && if s[0] == '+' || s[0] == '-' then AllDigits(s[1..]) else AllDigits(s)
  }

  /** Reads back an optional sign followed by digits. */
  function ParseInt(s: string): int
    requires IsSignedDecimal(s)
  {
    if s[0] == '-' then -(ParseNat(s[1..]) as int)
    else if s[0] == '+' then ParseNat(s[1..])
    else ParseNat(s)
  }

  lemma IntToStringRoundTrip(i: int)
    ensures IsSignedDecimal(IntToString(i)) && ParseInt(IntToString(i)) == i
  {
    if i < 0 {
      assert IntToString(i)[1..] == NatToString(-i);
      ParseNatToString(-i);
    } else {
      ParseNatToString(i);
    }
  }
}

=== FILE: player_list.dfy ===
/**
 * The player-name list of the home page: it starts with one default name,
 * grows by "Add Player" up to eight entries, shrinks by "Remove" down to one,
 * and accepts an edited name only when it has at most twenty characters.
 */
module PlayerList {
  import Decimal

  const MaxPlayers: nat := 8
  const MaxNameLength: nat := 20

  /** The name given to the `n`-th player (counting from 1) when none was typed. */
  function DefaultName(n: nat): (s: string)
    ensures |s| > 7 && s[..7] == "Player "
    ensures Decimal.AllDigits(s[7..]) && Decimal.ParseNat(s[7..]) == n
    ensures n < 10 ==> |s| == 8
    ensures s[7] == '0' ==> n == 0
  {
    Decimal.ParseNatToString(n);
    assert ("Player " + Decimal.NatToString(n))[7..] == Decimal.NatToString(n);
    "Player " + Decimal.NatToString(n)
  }

  predicate ValidNames(names: seq<string>) {
    && 1 <= |names| <= MaxPlayers
    && forall i :: 0 <= i < |names| ==> |names[i]| <= MaxNameLength
  }

  function InitialNames(): (names: seq<string>)
    ensures ValidNames(names) && names == [DefaultName(1)]
  {
    assert Decimal.NatToString(1) == [Decimal.DigitChar(1)] == "1";
    assert DefaultName(1) == "Player " + "1" == "Player 1";
    ["Player 1"]
  }

  /** "Add Player": appends the default name for the new position while fewer than eight. */
  function AddPlayer(names: seq<string>): (r: seq<string>)
    ensures |names| < MaxPlayers ==> |r| == |names| + 1 && r[..|names|] == names && r[|names|] == DefaultName(|r|)
    ensures |names| >= MaxPlayers ==> r == names
    ensures ValidNames(names) ==> ValidNames(r)
  {
    if |names| < MaxPlayers then names + [DefaultName(|names| + 1)] else names
  }

  /**
   * The entries whose position is not `index`, in order: the list filtered
   * by position, as "Remove" computes it.
   */
  function WithoutIndex<T>(s: seq<T>, index: int): (r: seq<T>)
    ensures 0 <= index < |s| ==> r == s[..index] + s[index + 1..]
    ensures !(0 <= index < |s|) ==> r == s
    decreases |s|
  {
    if |s| == 0 then []
    else WithoutIndex(s[..|s| - 1], index) + (if |s| - 1 == index then [] else [s[|s| - 1]])
  }

  /** "Remove": drops the entry at `index` unless it is the only one. */
  function RemovePlayer(names: seq<string>, index: int): (r: seq<string>)
    ensures |names| > 1 && 0 <= index < |names| ==>
              |r| == |names| - 1
              && (forall k :: 0 <= k < index ==> r[k] == names[k])
              && (forall k :: index <= k < |r| ==> r[k] == names[k + 1])
    ensures |names| <= 1 ==> r == names
    ensures ValidNames(names) ==> ValidNames(r)
  {
    if |names| > 1 then WithoutIndex(names, index) else names
  }

  /** Typing into row `index`: the edit is taken only when it has at most twenty characters. */
  function ChangeName(names: seq<string>, index: nat, value: string): (r: seq<string>)
    requires index < |names|
    ensures |r| == |names|
    ensures forall k :: 0 <= k < |names| && k != index ==> r[k] == names[k]
    ensures r[index] == value <==> |value| <= MaxNameLength || names[index] == value
    ensures MaxNameLength < |value| ==> r == names
    ensures ValidNames(names) ==> ValidNames(r)
  {
    if |value| <= MaxNameLength then names[index := value] else names
  }

  /** What the page lets the user do to the list. */
  datatype Edit = Add | Remove(index: int) | Rename(index: int, value: string)

  /**
   * Applies the edits in order; from a valid list (such as `InitialNames()`)
   * every sequence of edits keeps it within 1..8 names of at most 20 characters.
   * Remove and rename are offered only on rendered rows, so an edit naming a
   * row that does not exist cannot occur; it is skipped.
   */
  function ApplyEdits(names: seq<string>, edits: seq<Edit>): (r: seq<string>)
    ensures ValidNames(names) ==> ValidNames(r)
    decreases |edits|
  {
    if |edits| == 0 then names
    else
      var next :=
        match edits[0]
        case Add => AddPlayer(names)
        case Remove(i) => RemovePlayer(names, i)
        case Rename(i, v) => if 0 <= i < |names| then ChangeName(names, i, v) else names;
      ApplyEdits(next, edits[1..])
  }
}

=== FILE: round_state.dfy ===
/**
 * The state of a round on the play page: the course's holes, the players
 * with one score slot and one OB flag per hole, the (hole, player) cursor
 * and the digit kept back for a two-digit score.
 */
module RoundState {
  import opened Wrappers
  import PlayerList

  datatype Hole = Hole(holeNumber: int, par: int)

  /** `scores[h]` is `None` until a score is entered for hole `h`. */
  datatype Player = Player(name: string, scores: seq<Option<int>>, isOB: seq<bool>)

  datatype Round = Round(
    holes: seq<Hole>,
    players: seq<Player>,
    hole: nat,              // currentHoleIndex
    player: nat,            // selectedPlayerIndex
    pending: Option<int>)   // pendingInput

  /** A score the keypad can produce. */
  predicate KeypadScore(s: Option<int>) {
    s.Some? ==> 0 <= s.value <= 19
  }

  /** One score slot and one OB flag per hole, every score a keypad score. */
  predicate WellFormedPlayer(p: Player, holeCount: nat) {
    && |p.scores| == holeCount
    && |p.isOB| == holeCount
    && forall h :: 0 <= h < holeCount ==> KeypadScore(p.scores[h])
  }

  /** The invariant every reachable round keeps. */
  predicate Valid(r: Round) {
    && 0 < |r.holes|
    && 0 < |r.players|
    && r.hole < |r.holes|
    && r.player < |r.players|
    && (r.pending == None || r.pending == Some(1))
    && forall i :: 0 <= i < |r.players| ==> WellFormedPlayer(r.players[i], |r.holes|)
  }

  /** The name shown for player `i`: the typed one, or the default when it was left empty. */
  function DisplayName(names: seq<string>, i: nat): (s: string)
    requires i < |names|
    ensures s != ""
    ensures names[i] != "" ==> s == names[i]
    ensures names[i] == "" ==> s == PlayerList.DefaultName(i + 1)
  {
    if names[i] != "" then names[i] else PlayerList.DefaultName(i + 1)
  }

  /**
   * The round the play page starts with: one player per name given by the
   * home page, nothing scored, nothing OB, cursor on the first player of the
   * first hole, no digit kept back.
   */
  function InitRound(names: seq<string>, holes: seq<Hole>): (r: Round)
    ensures r.holes == holes && |r.players| == |names|
    ensures r.hole == 0 && r.player == 0 && r.pending == None
    ensures forall i :: 0 <= i < |names| ==>
              && r.players[i].name == DisplayName(names, i)
              && |r.players[i].scores| == |holes| && |r.players[i].isOB| == |holes|
    ensures forall i, h :: 0 <= i < |names| && 0 <= h < |holes| ==>
              r.players[i].scores[h] == None && !r.players[i].isOB[h]
    ensures 0 < |names| && 0 < |holes| ==> Valid(r)
  {
    var unscored := seq(|holes|, _ => None);
    var clear := seq(|holes|, _ => false);
    Round(holes, seq(|names|, i requires 0 <= i < |names| => Player(DisplayName(names, i), unscored, clear)), 0, 0, None)
  }

  /** Whether every player has a score for hole `h` (the green progress dot). */
  function AllScoresMarked(players: seq<Player>, h: nat): (b: bool)
    requires forall i :: 0 <= i < |players| ==> h < |players[i].scores|
    ensures b <==> forall i :: 0 <= i < |players| ==> players[i].scores[h].Some?
  {
    if |players| == 0 then true
    else players[0].scores[h].Some? && AllScoresMarked(players[1..], h)
  }
}

=== FILE: scoring.dfy ===
/**
 * The play page's input handling: keypad digits and the keypad OB key act
 * on the selected player at the current hole, each row has its own OB
 * button and can be selected, and the arrow keys advance and retreat the
 * cursor. Each event is one pure transition; events are handled strictly
 * one after another.
 */
module Scoring {
  import opened Wrappers
  import opened RoundState

  /** A keypad digit key, 0 to 9. */
  type Digit = d: int | 0 <= d <= 9

  datatype KeypadInput = DigitKey(digit: Digit) | OBKey

  /** `a` and `b` agree everywhere except at player `i`'s slot for hole `h`. */
  predicate OnlyCellChanged(a: seq<Player>, b: seq<Player>, i: nat, h: nat) {
    && |a| == |b|
    && i < |a|
    && (forall j :: 0 <= j < |a| && j != i ==> b[j] == a[j])
    && b[i].name == a[i].name
    && |b[i].scores| == |a[i].scores|
    && |b[i].isOB| == |a[i].isOB|
    && (forall k :: 0 <= k < |a[i].scores| && k != h ==> b[i].scores[k] == a[i].scores[k])
    && (forall k :: 0 <= k < |a[i].isOB| && k != h ==> b[i].isOB[k] == a[i].isOB[k])
  }

  /** The score and the OB flag of player `i` at the cursor's hole. */
  function ScoreHere(r: Round, i: nat): Option<int>
    requires Valid(r) && i < |r.players|
  {
    r.players[i].scores[r.hole]
  }

  function OBHere(r: Round, i: nat): bool
    requires Valid(r) && i < |r.players|
  {
    r.players[i].isOB[r.hole]
  }

  /** Same holes, same cursor. */
  predicate SameCursor(r: Round, r': Round) {
    r'.holes == r.holes && r'.hole == r.hole && r'.player == r.player
  }

  function FlipOB(ps: seq<Player>, i: nat, h: nat): seq<Player>
    requires i < |ps| && h < |ps[i].isOB|
  {
    ps[i := ps[i].(isOB := ps[i].isOB[h := !ps[i].isOB[h]])]
  }

  function SetScore(ps: seq<Player>, i: nat, h: nat, score: int): seq<Player>
    requires i < |ps| && h < |ps[i].scores|
  {
    ps[i := ps[i].(scores := ps[i].scores[h := Some(score)])]
  }

  /**
   * `handleScoreInput`. A digit with nothing kept back is written as the
   * score and kept back only when it is 1; a digit after a kept-back 1 makes
   * the score 10 + digit and clears it. The OB key toggles the flag and
   * leaves the kept-back digit alone.
   */
  function HandleScoreInput(r: Round, input: KeypadInput): (r': Round)
    requires Valid(r)
    ensures Valid(r') && SameCursor(r, r')
    ensures OnlyCellChanged(r.players, r'.players, r.player, r.hole)
    ensures input.OBKey? ==>
              && ScoreHere(r', r.player) == ScoreHere(r, r.player)
              && OBHere(r', r.player) == !OBHere(r, r.player)
              && r'.pending == r.pending
    ensures input.DigitKey? && r.pending == None ==>
              && ScoreHere(r', r.player) == Some(input.digit)
              && OBHere(r', r.player) == OBHere(r, r.player)
              && (r'.pending == Some(1) <==> input.digit == 1)
              && (r'.pending == None <==> input.digit != 1)
    ensures input.DigitKey? && r.pending != None ==>
              && ScoreHere(r', r.player) == Some(10 + input.digit)
              && OBHere(r', r.player) == OBHere(r, r.player)
              && r'.pending == None
  {
    match input
    case OBKey =>
      r.(players := FlipOB(r.players, r.player, r.hole))
    case DigitKey(d) =>
      if r.pending.Some? then
        r.(players := SetScore(r.players, r.player, r.hole, r.pending.value * 10 + d), pending := None)
      else
        r.(players := SetScore(r.players, r.player, r.hole, d), pending := if d == 1 then Some(1) else None)
  }

  /** `toggleOBStatus(row)`: the OB button on a player's row. */
  function ToggleOBStatus(r: Round, row: nat): (r': Round)
    requires Valid(r) && row < |r.players|
    ensures Valid(r') && SameCursor(r, r') && r'.pending == r.pending
    ensures OnlyCellChanged(r.players, r'.players, row, r.hole)
    ensures ScoreHere(r', row) == ScoreHere(r, row)
    ensures OBHere(r', row) == !OBHere(r, row)
  {
    r.(players := FlipOB(r.players, row, r.hole))
  }

  /** Clicking a player's row selects it; the kept-back digit is not cleared. */
  function SelectPlayer(r: Round, row: nat): (r': Round)
    requires Valid(r) && row < |r.players|
    ensures Valid(r')
    ensures r'.player == row
    ensures r'.holes == r.holes && r'.players == r.players && r'.hole == r.hole && r'.pending == r.pending
  {
    r.(player := row)
  }

  /** The cursor's place in hole-major order: player `p` of hole `h` is cell `h * |players| + p`. */
  function Position(r: Round): int {
    r.hole * |r.players| + r.player
  }

  /** A round after an event, and whether that event asked for the results page. */
  datatype Transition = Transition(round: Round, complete: bool)

  /**
   * `nextHoleOrPlayer`: the next player, else the first player of the next
   * hole, else (last player, last hole) the round is complete and the cursor
   * stays. The kept-back digit is cleared in every case.
   */
  function NextHoleOrPlayer(r: Round): (t: Transition)
    requires Valid(r)
    ensures Valid(t.round)
    ensures t.round.holes == r.holes && t.round.players == r.players && t.round.pending == None
    ensures r.player < |r.players| - 1 ==>
              t.round.hole == r.hole && t.round.player == r.player + 1 && !t.complete
    ensures r.player == |r.players| - 1 && r.hole < |r.holes| - 1 ==>
              t.round.hole == r.hole + 1 && t.round.player == 0 && !t.complete
    ensures r.player == |r.players| - 1 && r.hole == |r.holes| - 1 ==>
              t.round.hole == r.hole && t.round.player == r.player && t.complete
    ensures t.complete <==> Position(r) == |r.holes| * |r.players| - 1
    ensures !t.complete ==> Position(t.round) == Position(r) + 1
  {
    var t :=
      if r.player < |r.players| - 1 then
        Transition(r.(player := r.player + 1), false)
      else if r.hole < |r.holes| - 1 then
        Transition(r.(hole := r.hole + 1, player := 0), false)
      else
        Transition(r, true);
    PositionFacts(r);
    Transition(t.round.(pending := None), t.complete)
  }

  /** The cursor's position lies among the `|holes| * |players|` cells, and is the last one exactly on the last player of the last hole. */
  lemma PositionFacts(r: Round)
    requires Valid(r)
    ensures 0 <= Position(r) < |r.holes| * |r.players|
    ensures Position(r) == |r.holes| * |r.players| - 1 <==>
              r.player == |r.players| - 1 && r.hole == |r.holes| - 1
    ensures r.player == |r.players| - 1 ==> Position(r) + 1 == (r.hole + 1) * |r.players|
  {
    var n := |r.players|;
    assert (r.hole + 1) * n == r.hole * n + n;
    assert r.hole + 1 <= |r.holes|;
    MulMonotone(r.hole + 1, |r.holes|, n);
    if r.hole < |r.holes| - 1 {
      MulMonotone(r.hole + 2, |r.holes|, n);
      assert (r.hole + 2) * n == (r.hole + 1) * n + n;
    }
  }

  lemma MulMonotone(a: nat, b: nat, n: nat)
    requires a <= b
    ensures a * n <= b * n
  {
  }

  /** `previousHole`: back to the first player of the previous hole; at the first hole the cursor stays. The kept-back digit is always cleared. */
  function PreviousHole(r: Round): (r': Round)
    requires Valid(r)
    ensures Valid(r')
    ensures r'.holes == r.holes && r'.players == r.players && r'.pending == None
    ensures r.hole > 0 ==> r'.hole == r.hole - 1 && r'.player == 0
    ensures r.hole == 0 ==> r'.hole == 0 && r'.player == r.player
  {
    if r.hole > 0 then r.(hole := r.hole - 1, player := 0, pending := None)
    else r.(pending := None)
  }

  /** What a user can do on the play page. */
  datatype Event =
    | Keypad(input: KeypadInput)
    | RowOB(row: nat)
    | RowSelect(row: nat)
    | Advance
    | Retreat

  /**
   * The events the page can deliver in round `r`: row events only for the
   * rows on screen, and retreat only away from the first hole, where its
   * button is disabled.
   */
  predicate Enabled(r: Round, e: Event) {
    match e
    case RowOB(row) => row < |r.players|
    case RowSelect(row) => row < |r.players|
    case Retreat => r.hole > 0
    case _ => true
  }

  function Step(r: Round, e: Event): (t: Transition)
    requires Valid(r) && Enabled(r, e)
    ensures Valid(t.round)
    ensures t.round.holes == r.holes && |t.round.players| == |r.players|
    ensures t.complete ==> e.Advance?
  {
    match e
    case Keypad(input) => Transition(HandleScoreInput(r, input), false)
    case RowOB(row) => Transition(ToggleOBStatus(r, row), false)
    case RowSelect(row) => Transition(SelectPlayer(r, row), false)
    case Advance => NextHoleOrPlayer(r)
    case Retreat => Transition(PreviousHole(r), false)
  }

  /**
   * Handles `events` one at a time until one of them completes the round
   * (the page then leaves for the results). An event the page cannot deliver
   * in the round at hand (a missing row, retreat at the first hole) does not
   * occur, so it is passed over. Every round reached keeps the
   * invariant: the cursor in bounds, one score slot and one OB flag per hole,
   * only 1 ever kept back, every score between 0 and 19.
   */
  function Run(r: Round, events: seq<Event>): (t: Transition)
    requires Valid(r)
    ensures Valid(t.round)
    ensures t.round.holes == r.holes && |t.round.players| == |r.players|
    decreases |events|
  {
    if |events| == 0 then Transition(r, false)
    else
      if !Enabled(r, events[0]) then Run(r, events[1..])
      else
        var t := Step(r, events[0]);
        if t.complete then t else Run(t.round, events[1..])
  }
}

=== FILE: scoring_laws.dfy ===
/** Laws that relate several play-page events to one another. */
module ScoringLaws {
  import opened Wrappers
  import opened RoundState
  import opened Scoring
  import Summary

  /** The keypad OB key is the selected row's OB button. */
  lemma OBKeyIsRowButton(r: Round)
    requires Valid(r)
    ensures HandleScoreInput(r, OBKey) == ToggleOBStatus(r, r.player)
  {
  }

  /** Pressing a row's OB button twice restores the round. */
  lemma ToggleOBTwice(r: Round, row: nat)
    requires Valid(r) && row < |r.players|
    ensures ToggleOBStatus(ToggleOBStatus(r, row), row) == r
  {
    var p := r.players[row];
    var r1 := ToggleOBStatus(r, row);
    assert r1.players[row].isOB[r.hole := p.isOB[r.hole]] == p.isOB;
    assert r1.players[row].(isOB := p.isOB) == p;
    assert r1.players[row := p] == r.players;
  }

  /** Pressing the keypad OB key twice restores the round. */
  lemma OBKeyTwice(r: Round)
    requires Valid(r)
    ensures HandleScoreInput(HandleScoreInput(r, OBKey), OBKey) == r
  {
    OBKeyIsRowButton(r);
    OBKeyIsRowButton(HandleScoreInput(r, OBKey));
    ToggleOBTwice(r, r.player);
  }

  /** Presses digit keys in order, on whichever player is selected. */
  function EnterDigits(r: Round, digits: seq<Digit>): (r': Round)
    requires Valid(r)
    ensures Valid(r') && SameCursor(r, r')
    decreases |digits|
  {
    if |digits| == 0 then r else EnterDigits(HandleScoreInput(r, DigitKey(digits[0])), digits[1..])
  }

  /** The keys that enter score `s`: its decimal digits. */
  function KeysFor(s: int): seq<Digit>
    requires 0 <= s <= 19
  {
    if s < 10 then [s] else [1, s - 10]
  }

  /**
   * Every score from 0 to 19 can be entered by typing its digits, and a digit
   * is kept back afterwards only for the score 1.
   */
  lemma EnterScore(r: Round, s: int)
    requires Valid(r) && r.pending == None && 0 <= s <= 19
    ensures ScoreHere(EnterDigits(r, KeysFor(s)), r.player) == Some(s)
    ensures EnterDigits(r, KeysFor(s)).pending == (if s == 1 then Some(1) else None)
  {
    var r1 := HandleScoreInput(r, DigitKey(KeysFor(s)[0]));
    if s >= 10 {
      var r2 := HandleScoreInput(r1, DigitKey(s - 10));
      assert EnterDigits(r1, KeysFor(s)[1..]) == EnterDigits(r2, []);
    } else {
      assert EnterDigits(r1, KeysFor(s)[1..]) == r1;
    }
  }

  /** A first digit other than 1 is final: "5" then "3" leaves 3, not 53. */
  lemma NonOneDigitIsOverwritten(r: Round, first: Digit, second: Digit)
    requires Valid(r) && r.pending == None && first != 1
    ensures ScoreHere(EnterDigits(r, [first, second]), r.player) == Some(second)
  {
    var r1 := HandleScoreInput(r, DigitKey(first));
    assert EnterDigits(r, [first, second]) == EnterDigits(r1, [second]);
    assert EnterDigits(r1, [second]) == EnterDigits(HandleScoreInput(r1, DigitKey(second)), []);
  }

  /** "1", "1", "1" ends with the score 1 and the 1 kept back again. */
  lemma ThreeOnes(r: Round)
    requires Valid(r) && r.pending == None
    ensures ScoreHere(EnterDigits(r, [1, 1, 1]), r.player) == Some(1)
    ensures EnterDigits(r, [1, 1, 1]).pending == Some(1)
  {
  }

  /**
   * Selecting another row keeps a kept-back 1, so "1" on one player, a click
   * on another player's row, then "2" gives the second player 12.
   */
  lemma PendingCarriesAcrossRowSelect(r: Round, other: nat, d: Digit)
    requires Valid(r) && r.pending == None && other < |r.players|
    ensures
      var r1 := SelectPlayer(HandleScoreInput(r, DigitKey(1)), other);
      ScoreHere(HandleScoreInput(r1, DigitKey(d)), other) == Some(10 + d)
  {
  }

  /** Advancing from the last player of a hole and retreating comes back to the first player of that hole. */
  lemma AdvanceThenRetreat(r: Round)
    requires Valid(r) && r.player == |r.players| - 1 && r.hole < |r.holes| - 1
    ensures var back := PreviousHole(NextHoleOrPlayer(r).round);
            back.hole == r.hole && back.player == 0 && back.players == r.players
  {
  }

  /** Presses the advance key `k` times, stopping when the round completes. */
  function AdvanceTimes(r: Round, k: nat): (t: Transition)
    requires Valid(r)
    ensures Valid(t.round) && t.round.players == r.players && t.round.holes == r.holes
    decreases k
  {
    if k == 0 then Transition(r, false)
    else
      var t := NextHoleOrPlayer(r);
      if t.complete then t else AdvanceTimes(t.round, k - 1)
  }

  /**
   * Advancing walks the cells in hole-major order: from cell `Position(r)`,
   * `k` presses reach cell `Position(r) + k` while that cell exists, and the
   * round completes on the press made from the last cell.
   */
  lemma {:induction false} AdvanceWalk(r: Round, k: nat)
    requires Valid(r) && Position(r) + k < |r.holes| * |r.players|
    ensures !AdvanceTimes(r, k).complete
    ensures Position(AdvanceTimes(r, k).round) == Position(r) + k
    decreases k
  {
    if k > 0 {
      var t := NextHoleOrPlayer(r);
      assert !t.complete;
      AdvanceWalk(t.round, k - 1);
    }
  }

  /** From the first cell of a fresh round, one press per cell completes the round. */
  lemma AdvanceCompletesAfterEveryCell(names: seq<string>, holes: seq<Hole>)
    requires 0 < |names| && 0 < |holes|
    ensures AdvanceTimes(InitRound(names, holes), |holes| * |names|).complete
  {
    var r := InitRound(names, holes);
    var cells := |holes| * |names|;
    PositionFacts(r);
    AdvanceWalk(r, cells - 1);
    AdvanceTimesSplit(r, cells - 1);
  }

  /** Before completion, one more press is one more `NextHoleOrPlayer`. */
  lemma {:induction false} AdvanceTimesSplit(r: Round, k: nat)
    requires Valid(r) && !AdvanceTimes(r, k).complete
    ensures AdvanceTimes(r, k + 1) == NextHoleOrPlayer(AdvanceTimes(r, k).round)
    decreases k
  {
    if k > 0 {
      var t := NextHoleOrPlayer(r);
      AdvanceTimesSplit(t.round, k - 1);
    }
  }

  /** Every round reachable from a started round by events the page delivers satisfies the round invariant. */
  lemma StartedRoundsStayValid(names: seq<string>, holes: seq<Hole>, events: seq<Event>)
    requires 0 < |names| && 0 < |holes|
    ensures Valid(Run(InitRound(names, holes), events).round)
  {
  }

  /** Typing a first digit into an unscored cell raises that player's total on the results page by the digit. */
  lemma FirstDigitRaisesTotal(r: Round, d: Digit)
    requires Valid(r) && r.pending == None && ScoreHere(r, r.player) == None
    ensures Summary.TotalScore(HandleScoreInput(r, DigitKey(d)).players[r.player].scores)
            == Summary.TotalScore(r.players[r.player].scores) + d
  {
    var scores := r.players[r.player].scores;
    assert HandleScoreInput(r, DigitKey(d)).players[r.player].scores == scores[r.hole := Some(d)];
    Summary.ScoringACell(scores, r.holes, r.hole, d);
  }
}

=== FILE: string_order.dfy ===
/**
 * JavaScript's relational operators on strings: code units are compared
 * left to right, the first difference decides, and a proper prefix is
 * smaller than the longer string. (Dafny's own `<` on sequences means
 * "proper prefix", which is not this order.)
 */
module StringOrder {

  /** `a < b` as JavaScript evaluates it; `a > b` is `Less(b, a)`. */
  predicate Less(a: string, b: string)
    ensures Less(a, b) ==> a != b
    decreases |a|
  {
    if |a| == 0 then 0 < |b|
    else if |b| == 0 then false
    else if a[0] != b[0] then a[0] < b[0]
    else Less(a[1..], b[1..])
  }

  lemma {:induction false} Irreflexive(a: string)
    ensures !Less(a, a)
    decreases |a|
  {
    if |a| > 0 {
      Irreflexive(a[1..]);
    }
  }

  lemma {:induction false} Asymmetric(a: string, b: string)
    ensures Less(a, b) ==> !Less(b, a)
    decreases |a|
  {
    if |a| > 0 && |b| > 0 && a[0] == b[0] {
      Asymmetric(a[1..], b[1..]);
    }
  }

  lemma {:induction false} Transitive(a: string, b: string, c: string)
    requires Less(a, b) && Less(b, c)
    ensures Less(a, c)
    decreases |a|
  {
    if |a| > 0 && a[0] == b[0] && b[0] == c[0] {
      Transitive(a[1..], b[1..], c[1..]);
    }
  }

  /** Past a common prefix of length k, the first differing character decides. */
  lemma {:induction false} FirstDifferenceDecides(a: string, b: string, k: nat)
    requires k < |a| && k < |b| && a[..k] == b[..k] && a[k] != b[k]
    ensures Less(a, b) <==> a[k] < b[k]
    decreases k
  {
    if k > 0 {
      assert a[0] == a[..k][0] == b[..k][0] == b[0];
      assert a[1..][..k - 1] == a[..k][1..] == b[..k][1..] == b[1..][..k - 1];
      FirstDifferenceDecides(a[1..], b[1..], k - 1);
    }
  }

  /** Any two strings are ordered one way, the other way, or equal. */
  lemma {:induction false} Trichotomy(a: string, b: string)
    ensures Less(a, b) || a == b || Less(b, a)
    decreases |a|
  {
    if |a| > 0 && |b| > 0 && a[0] == b[0] {
      Trichotomy(a[1..], b[1..]);
      if a[1..] == b[1..] {
        assert a == [a[0]] + a[1..] && b == [b[0]] + b[1..];
      }
    }
  }

  /** A proper prefix comes first, which is where this order and Dafny's `<` agree. */
  lemma {:induction false} PrefixIsLess(a: string, b: string)
    requires |a| < |b| && a == b[..|a|]
    ensures Less(a, b)
    decreases |a|
  {
    if |a| > 0 {
      assert a[0] == b[0];
      assert a[1..] == b[1..][..|a| - 1];
      PrefixIsLess(a[1..], b[1..]);
    }
  }

  /** "Not after": the order in which `sortCourses` leaves neighbours unswapped. */
  predicate NotAfter(a: string, b: string) {
    !Less(b, a)
  }

  lemma NotAfterReflexive(a: string)
    ensures NotAfter(a, a)
  {
    Irreflexive(a);
  }

  lemma NotAfterTransitive(a: string, b: string, c: string)
    requires NotAfter(a, b) && NotAfter(b, c)
    ensures NotAfter(a, c)
  {
    if Less(c, a) {
      Trichotomy(a, b);
      if Less(a, b) {
        Transitive(c, a, b);
      }
    }
  }

  lemma LessIsNotAfter(a: string, b: string)
    requires Less(a, b)
    ensures NotAfter(a, b) && a != b
  {
  }
}

=== FILE: summary.dfy ===
/**
 * The results page: per-player totals, the difference to the course's par,
 * and the colour category of every score cell and of the difference cell.
 * The CSS class strings are represented by the categories they encode.
 */
module Summary {
  import opened Wrappers
  import opened RoundState
  import Decimal

  /** A cell's contribution to the total: its score, or nothing when unset. */
  function Contribution(s: Option<int>): int {
    s.GetOr(0)
  }

  /** `calculateTotalScore`: the scores folded from the left, unset ones skipped. */
  function TotalScore(scores: seq<Option<int>>): (t: int)
    ensures (forall h :: 0 <= h < |scores| ==> scores[h] == None) ==> t == 0
    ensures (forall h :: 0 <= h < |scores| ==> KeypadScore(scores[h])) ==> 0 <= t <= 19 * |scores|
  {
    if |scores| == 0 then 0
    else TotalScore(scores[..|scores| - 1]) + Contribution(scores[|scores| - 1])
  }

  /** `totalPar`: the par of every hole added up. */
  function TotalPar(holes: seq<Hole>): (t: int)
    ensures (forall h :: 0 <= h < |holes| ==> 1 <= holes[h].par) ==> |holes| <= t
  {
    if |holes| == 0 then 0 else TotalPar(holes[..|holes| - 1]) + holes[|holes| - 1].par
  }

  /**
   * `calculateParDifference`: the total score against the par of all holes,
   * scored or not. Hole by hole, a scored hole adds score minus par and an
   * unscored one subtracts its par.
   */
  function ParDifference(scores: seq<Option<int>>, holes: seq<Hole>): (d: int)
    ensures |scores| == |holes| ==> d == SumOfHoleDifferences(scores, holes)
    ensures (forall h :: 0 <= h < |scores| ==> scores[h] == None) ==> d == -TotalPar(holes)
  {
    if |scores| == |holes| then ParDifferenceByHole(scores, holes); TotalScore(scores) - TotalPar(holes)
    else TotalScore(scores) - TotalPar(holes)
  }

  /** Changing one cell changes the total by exactly the change in that cell. */
  lemma {:induction false} TotalScoreUpdate(scores: seq<Option<int>>, h: nat, s: Option<int>)
    requires h < |scores|
    ensures TotalScore(scores[h := s]) == TotalScore(scores) - Contribution(scores[h]) + Contribution(s)
    decreases |scores|
  {
    var n := |scores|;
    var updated := scores[h := s];
    if h < n - 1 {
      assert updated[..n - 1] == scores[..n - 1][h := s];
      TotalScoreUpdate(scores[..n - 1], h, s);
    } else {
      assert updated[..n - 1] == scores[..n - 1];
    }
  }

  /** Scoring an unset cell raises the total, and the par difference, by exactly that score. */
  lemma ScoringACell(scores: seq<Option<int>>, holes: seq<Hole>, h: nat, s: int)
    requires h < |scores| && scores[h] == None
    ensures TotalScore(scores[h := Some(s)]) == TotalScore(scores) + s
    ensures ParDifference(scores[h := Some(s)], holes) == ParDifference(scores, holes) + s
  {
    TotalScoreUpdate(scores, h, Some(s));
  }

  /** A hole's share of the par difference: score minus par when scored, minus par when not. */
  function HoleDifference(score: Option<int>, hole: Hole): int {
    match score
    case Some(s) => s - hole.par
    case None => -hole.par
  }

  function SumOfHoleDifferences(scores: seq<Option<int>>, holes: seq<Hole>): int
    requires |scores| == |holes|
  {
    if |scores| == 0 then 0
    else SumOfHoleDifferences(scores[1..], holes[1..]) + HoleDifference(scores[0], holes[0])
  }

  lemma {:induction false} TotalScoreCons(scores: seq<Option<int>>)
    requires 0 < |scores|
    ensures TotalScore(scores) == Contribution(scores[0]) + TotalScore(scores[1..])
    decreases |scores|
  {
    var n := |scores|;
    if n > 1 {
      TotalScoreCons(scores[..n - 1]);
      assert scores[..n - 1][1..] == scores[1..][..n - 2];
    }
  }

  lemma {:induction false} TotalParCons(holes: seq<Hole>)
    requires 0 < |holes|
    ensures TotalPar(holes) == holes[0].par + TotalPar(holes[1..])
    decreases |holes|
  {
    var n := |holes|;
    if n > 1 {
      TotalParCons(holes[..n - 1]);
      assert holes[..n - 1][1..] == holes[1..][..n - 2];
    }
  }

  /**
   * The par difference counts every hole: each scored hole adds score minus
   * par and each unscored hole subtracts its par.
   */
  lemma {:induction false} ParDifferenceByHole(scores: seq<Option<int>>, holes: seq<Hole>)
    requires |scores| == |holes|
    ensures TotalScore(scores) - TotalPar(holes) == SumOfHoleDifferences(scores, holes)
    decreases |scores|
  {
    if |scores| > 0 {
      TotalScoreCons(scores);
      TotalParCons(holes);
      ParDifferenceByHole(scores[1..], holes[1..]);
    }
  }

  /** With nothing scored, the par difference is minus the course's par. */
  lemma UnscoredParDifference(scores: seq<Option<int>>, holes: seq<Hole>)
    requires forall h :: 0 <= h < |scores| ==> scores[h] == None
    ensures ParDifference(scores, holes) == -TotalPar(holes)
  {
  }

  /** The colour categories of the results table. */
  datatype Category =
    | Unset         // bg-white
    | HoleInOne     // yellow
    | FarUnderPar   // darker green: more than two under
    | UnderPar      // light green
    | AtPar         // grey text
    | OneOverPar    // light red
    | OverPar       // darker red: two or more over

  /** A score cell's look: its category and whether it carries the red OB underline. */
  datatype CellStyle = CellStyle(category: Category, obMarked: bool)

  /** `getCellStyle(score, par, isOB)`. */
  function GetCellStyle(score: Option<int>, par: int, isOB: bool): (c: CellStyle)
    ensures c.category == Unset <==> score == None
    ensures c.category == HoleInOne <==> score == Some(1)
    ensures score.Some? && score.value != 1 ==>
              var d := score.value - par;
              && (c.category == FarUnderPar <==> d < -2)
              && (c.category == UnderPar <==> -2 <= d < 0)
              && (c.category == AtPar <==> d == 0)
              && (c.category == OneOverPar <==> d == 1)
              && (c.category == OverPar <==> d > 1)
    ensures c.obMarked <==> score.Some? && isOB
  {
    if score.None? then CellStyle(Unset, false)
    else
      var category :=
        if score.value == 1 then HoleInOne
        else
          var difference := score.value - par;
          if difference < -2 then FarUnderPar
          else if difference < 0 then UnderPar
          else if difference == 1 then OneOverPar
          else if difference > 1 then OverPar
          else AtPar;
      CellStyle(category, isOB)
  }

  /** The category of the par-difference cell: the same bands, no hole-in-one, never unset. */
  function DifferenceCategory(d: int): (c: Category)
    ensures c != Unset && c != HoleInOne
    ensures c == FarUnderPar <==> d < -2
    ensures c == UnderPar <==> -2 <= d < 0
    ensures c == AtPar <==> d == 0
    ensures c == OneOverPar <==> d == 1
    ensures c == OverPar <==> d > 1
  {
    if d < -2 then FarUnderPar
    else if d < 0 then UnderPar
    else if d == 1 then OneOverPar
    else if d > 1 then OverPar
    else AtPar
  }

  /** The OB flag only adds the underline; it never changes a cell's category. */
  lemma OBDoesNotChangeCategory(score: Option<int>, par: int)
    ensures GetCellStyle(score, par, true).category == GetCellStyle(score, par, false).category
    ensures GetCellStyle(score, par, true).obMarked == score.Some?
  {
  }

  /** Except for a hole-in-one, a score cell is coloured like a par difference of score minus par. */
  lemma CellMatchesDifferenceBands(score: int, par: int, isOB: bool)
    requires score != 1
    ensures GetCellStyle(Some(score), par, isOB).category == DifferenceCategory(score - par)
  {
  }

  /** Position of a band from best to worst. */
  function Rank(c: Category): nat {
    match c
    case Unset => 0
    case HoleInOne => 0
    case FarUnderPar => 0
    case UnderPar => 1
    case AtPar => 2
    case OneOverPar => 3
    case OverPar => 4
  }

  /** A larger difference never gets a better band. */
  lemma DifferenceCategoryMonotone(d1: int, d2: int)
    requires d1 <= d2
    ensures Rank(DifferenceCategory(d1)) <= Rank(DifferenceCategory(d2))
  {
  }

  /** The text of the par-difference cell: "+" before a positive difference, then the number. */
  function DifferenceLabel(d: int): (s: string)
    ensures 0 < |s|
    ensures s[0] == '+' <==> d > 0
    ensures s[0] == '-' <==> d < 0
    ensures s == "0" <==> d == 0
    ensures d != 0 ==> 1 < |s| && s[1] != '0'
  {
    if d > 0 then "+" + Decimal.IntToString(d) else Decimal.IntToString(d)
  }

  /** The label reads back as the difference it shows. */
  lemma DifferenceLabelRoundTrip(d: int)
    ensures Decimal.IsSignedDecimal(DifferenceLabel(d)) && Decimal.ParseInt(DifferenceLabel(d)) == d
  {
    Decimal.IntToStringRoundTrip(d);
    if d > 0 {
      assert DifferenceLabel(d)[1..] == Decimal.IntToString(d);
    }
  }

  /** One row of the results table. */
  datatype Row = Row(name: string, cells: seq<CellStyle>, total: int, difference: int, differenceCategory: Category, differenceText: string)

  function SummaryRow(p: Player, holes: seq<Hole>): (row: Row)
    requires |p.scores| == |holes| && |p.isOB| == |holes|
    ensures row.name == p.name
    ensures row.total == TotalScore(p.scores)
    ensures row.differenceCategory == DifferenceCategory(row.difference)
    ensures |row.cells| == |holes|
    ensures forall h :: 0 <= h < |holes| ==> row.cells[h] == GetCellStyle(p.scores[h], holes[h].par, p.isOB[h])
    ensures row.difference == row.total - TotalPar(holes)
    ensures row.differenceText == DifferenceLabel(row.difference)
    ensures Decimal.IsSignedDecimal(row.differenceText) && Decimal.ParseInt(row.differenceText) == row.difference
  {
    var total := TotalScore(p.scores);
    var difference := ParDifference(p.scores, holes);
    DifferenceLabelRoundTrip(difference);
    Row(p.name,
        seq(|holes|, h requires 0 <= h < |holes| => GetCellStyle(p.scores[h], holes[h].par, p.isOB[h])),
        total, difference, DifferenceCategory(difference), DifferenceLabel(difference))
  }

  /** Scoring an unset cell with `s` raises the row's total and difference by `s` and leaves the other cells as they were. */
  lemma RowTracksScoring(p: Player, holes: seq<Hole>, h: nat, s: int)
    requires |p.scores| == |holes| && |p.isOB| == |holes|
    requires h < |holes| && p.scores[h] == None
    ensures var before := SummaryRow(p, holes);
            var after := SummaryRow(p.(scores := p.scores[h := Some(s)]), holes);
            && after.total == before.total + s
            && after.difference == before.difference + s
            && after.cells[h] == GetCellStyle(Some(s), holes[h].par, p.isOB[h])
            && forall k :: 0 <= k < |holes| && k != h ==> after.cells[k] == before.cells[k]
  {
    ScoringACell(p.scores, holes, h, s);
  }

  /** Pars 3, 4, 3 and scores 3, 6 (OB), 2: total 11 against par 10, shown as "+1". */
  lemma ThreeHoleExample()
    ensures var holes := [Hole(1, 3), Hole(2, 4), Hole(3, 3)];
            var p := Player("Ann", [Some(3), Some(6), Some(2)], [false, true, false]);
            && TotalPar(holes) == 10
            && SummaryRow(p, holes) == Row("Ann",
                 [CellStyle(AtPar, false), CellStyle(OverPar, true), CellStyle(UnderPar, false)],
                 11, 1, OneOverPar, "+1")
  {
    var holes := [Hole(1, 3), Hole(2, 4), Hole(3, 3)];
    var scores := [Some(3), Some(6), Some(2)];
    assert holes[..2][..1] == [Hole(1, 3)] && holes[..2] == [Hole(1, 3), Hole(2, 4)];
    assert scores[..2][..1] == [Some(3)] && scores[..2] == [Some(3), Some(6)];
    assert TotalScore(scores) == 11;
    assert [Hole(1, 3)][..0] == [];
    assert TotalPar([Hole(1, 3)]) == 3;
    assert TotalPar(holes[..2]) == 7;
    assert TotalPar(holes) == 10;
    assert Decimal.NatToString(1) == "1";
    assert DifferenceLabel(1) == "+" + "1" == "+1";
  }
}

=== FILE: wrappers.dfy ===
/** The optional value used wherever the application stores `null`. */
module Wrappers {

  datatype Option<+T> = None | Some(value: T) {

    /** The wrapped value, or `default` when there is none. */
    function GetOr(default: T): T {
      match this
      case Some(v) => v
      case None => default
    }
  }
}
